=== FILE: README.md ===
# Swarm mobile: node bootstrap and stamp provisioning

A Dafny model of the decision logic inside the swarm-mobile app's main
screen (`internal/screens/indexView.go`): starting the bee-lite storage
node from a password and an RPC endpoint, recovering the overlay address
when the start fails, auto-provisioning a postage stamp batch when the
node has none, resolving a selected stamp by its short id, and gating
uploads and recording their history.

Everything outside the app is an input. An `Env` record carries what the
node's collaborators answer: `bee.Start`, `bee.OverlayAddr`, the node's
batch list, chequebook balance, withdrawal, stamp purchase and file
upload. The RPC client's answers, the dial and the chain-id query, are a
separate `RpcAnswers` record given to the RPC form's button. Every action
is a pure function from the state (a `Session`: preference store, node
handle, visible screen, radio entries) and the collaborators' answers to
an `Effect`: the new session, the ordered trace of what
happened (collaborator calls, the settlement wait, preference writes) and
the dialogs shown. Throughout, the new store is exactly the old store
with the trace's writes replayed (`Session.ApplyTrace`).

Modules, one file each:

- `Outcomes`: `Option` and the collaborator `Outcome` (value or error text).
- `Hex`: `hex.EncodeToString`, its inverse, and the six-digit prefix fact.
- `Shorten`: `shortenHashOrAddress`.
- `Preferences`: the key/value store with Fyne's `""`-when-absent reading,
  the five keys, and the `uploads` history kept abstractly.
- `NodeConfig`: the `bee.Options` literal and the testnet/mainnet profiles.
- `Session`: collaborator calls, trace events, failures, dialogs, session
  state, and trace replay.
- `Provisioning`: the stamp part of `loadView`.
- `Bootstrap`: launch auto-start, the password and RPC form buttons,
  `start`, `initSwarm`.
- `Selection`: the stamp radio's change callback.
- `Upload`: the upload form's submit action.

Behaviour of the code worth knowing:

- The chain id returned by the endpoint is never compared with the
  profile's id. It is only checked that the query succeeds.
- When `start` fails and address recovery fails too, only the recovery
  error is shown; the start error is dropped.
- The auto-provisioning path does not store the new batch as selected. It
  only adds its short id to the radio list.
- The password is written inside `initSwarm` and the endpoint afterwards
  in `start`, as two separate writes in that order.
- Upload uses whatever `batch` is stored without re-checking it against
  the live batch list.
- With no batches the full balance is withdrawn, with no minimum amount.
- A `loadView` error is shown twice: once by `loadView`, once by `start`.
- A failing balance query, withdrawal, purchase, address recovery or
  upload is shown as the collaborator's bare error text. No fixed message
  names the step that failed.

## Model

| member | source | states |
|---|---|---|
| Shorten.ShortenHashOrAddress | internal/screens/indexView.go:570-572 | the short form is 17 characters: the first six of the input, `[...]`, the last six |
| Shorten.ShortenIdempotent | internal/screens/indexView.go:570-572 | shortening a short form gives it back unchanged |
| Shorten.ShortFormKeepsPrefix | internal/screens/indexView.go:570-572 | prefix matching against a short form equals prefix matching against the full id |
| Shorten.ShortFormCollision | internal/screens/indexView.go:570-572 | two ids share a short form iff they agree on their first six and last six characters |
| Hex.Encode | internal/screens/indexView.go:260 | the hex form of a batch id has two characters per byte |
| Hex.RoundTrip | internal/screens/indexView.go:260 | decoding the hex form of bytes gives the bytes back |
| Hex.EncodePrefix | internal/screens/indexView.go:260-261 | the first 2k hex characters are the encoding of the first k bytes |
| Hex.SixDigitPrefix | internal/screens/indexView.go:260-261 | two ids agree on six hex characters iff they agree on their first three bytes |
| NodeConfig.NodeOptions | internal/screens/indexView.go:196-227 | chain id, network id and bootnodes come together from the selected profile; `Mainnet` is true; deposit "10000000000000000" and threshold "100000000"; listen address ":6969"; full node, swap, chequebook and chain enabled; warmup 0, block time 5, no postage snapshot; 50 open DB files, 32 MiB write buffer and block cache, seeks compaction left on; retrieval caching on; paths, welcome message and endpoint are the arguments |
| NodeConfig.ProfilesDifferOnlyInProfile | internal/screens/indexView.go:196-227 | mainnet and testnet options agree on every field except chain id, network id and bootnodes, and do differ |
| NodeConfig.ProfileDeterminesSwitch | internal/screens/indexView.go:222-227 | chain id 100, network id 1 and the mainnet bootnodes each hold iff the switch is on |
| Bootstrap.InitSwarm | internal/screens/indexView.go:195-236 | the node is started first; on failure the session is untouched and the error returned; on success the password is the only write and the node handle is kept |
| Bootstrap.StartFailed | internal/screens/indexView.go:176-183 | a failed start recovers the overlay address: with it the start error is shown beside the address, without it only the recovery error; nothing is written |
| Bootstrap.PersistEndpointAndLoad | internal/screens/indexView.go:186-191 | after the node is up the endpoint is the one write, then `loadView` runs on the updated store: its trace follows the write, its session is the result, and its error, if any, is shown again; the node and the uploads are untouched |
| Bootstrap.Started | internal/screens/indexView.go:173-191 | after `initSwarm` succeeds the writes are the password then the endpoint, the node handle is the one started, and no other key or the uploads change; with batches on the node the dashboard shows them all by short id and no dialog appears |
| Bootstrap.Start | internal/screens/indexView.go:166-193 | a blank password calls and writes nothing; otherwise the first call starts the node on testnet; on start failure nothing is written and the node stays unset; on success the writes are the password then the endpoint; no other key changes; with batches on the node a successful start ends on the dashboard listing them by short id, with no dialog; no event of the trace dials the RPC endpoint or queries its chain id |
| Bootstrap.Launch | internal/screens/indexView.go:96-113 | at launch the node is started iff both a stored password and a stored endpoint are non-empty, using them, with no endpoint check (no event dials the RPC endpoint or queries its chain id); otherwise the password form shows and nothing happens; the store is the old one with the trace's writes replayed |
| Bootstrap.PasswordNext | internal/screens/indexView.go:117-126 | a blank password is refused; any other moves to the RPC form holding it, without calls or writes |
| Bootstrap.RpcStart | internal/screens/indexView.go:139-160 | a blank endpoint, a dial failure or a chain-id failure each stop before `start` with their own error; the node start is reached iff all three checks pass and the password is non-empty, and then uses the typed endpoint and the form's password, storing the password then the endpoint on success; a failed start leaves the session unchanged |
| Bootstrap.ProbedStart | internal/screens/indexView.go:152-159 | once both probes answered, the probes come first and write nothing; a blank form password ends there with the blank-password error; otherwise the node is then started with the probed endpoint and the form's password, on success those two are stored in that order and the node is kept, and on start failure the session is unchanged |
| Bootstrap.ProbedStartAttempts | internal/screens/indexView.go:152-159 | once both probes answered, the node start is reached iff the form's password is non-empty |
| Bootstrap.StartFailureReport | internal/screens/indexView.go:176-183 | after a failed start the calls are exactly start then recovery; the dialog carries the address and start error, or only the recovery error |
| Bootstrap.StartUsesTestnet | internal/screens/indexView.go:172-174 | `start` always asks for chain id 5, network id 10 and the testnet bootnodes, with the given endpoint |
| Bootstrap.ProvisioningFailureKeepsCredentials | internal/screens/indexView.go:186-191 | if the node starts but `loadView` fails, password and endpoint stay stored, the node stays up, the screen stays, and the error is shown twice |
| Bootstrap.FirstStartBuysAndListsStamp | internal/screens/indexView.go:166-192 | on a fresh node whose provisioning succeeds, `start` ends on the dashboard listing only the bought batch, with no dialog; the trace is exactly: start the node, store password then endpoint, list batches, query the balance, withdraw all of it, wait 30 s, buy 100000000 at depth 22 with no label, mutable |
| Bootstrap.StartIsRememberedAtLaunch | internal/screens/indexView.go:97-100 | after a successful start, the next launch starts the node with the same password and endpoint |
| Bootstrap.WritesGivePrefs | internal/screens/indexView.go:229-233 | a successful start leaves the password and endpoint readable under their keys |
| Bootstrap.FailedStartIsForgotten | internal/screens/indexView.go:229-232 | after a failed first start, the next launch shows the password form and calls nothing |
| Bootstrap.FailedAutoStartKeepsWaiting | internal/screens/indexView.go:99-112 | a failed auto-start leaves the waiting view with no node |
| Bootstrap.ChainIdIsDiscarded | internal/screens/indexView.go:152-158 | any two successful chain-id answers give the same result: the id is never compared |
| Provisioning.AutoFund | internal/screens/indexView.go:267-309 | with no batch: success iff balance, withdrawal and purchase all succeed; no preference is written; on success only the new batch's short id is listed; on failure the session is unchanged and the error shown once |
| Provisioning.LoadView | internal/screens/indexView.go:251-317 | the batch list is read first; nothing is written; with batches present the only call is the listing and every batch is listed by short id; with none the automatic path decides success |
| Provisioning.AutoFundSequence | internal/screens/indexView.go:267-309 | with no batch and every step succeeding the trace is exactly: list, balance, withdraw the balance, wait 30 s, buy 100000000 at depth 22 with no label, mutable |
| Provisioning.AutoFundStopsAtFirstError | internal/screens/indexView.go:269-307 | a failing balance, withdrawal or purchase ends the sequence there, with that step's error |
| Provisioning.WithdrawsWholeBalance | internal/screens/indexView.go:269-275 | whatever the balance, zero included, the third call withdraws all of it and no withdrawal asks for another amount |
| Provisioning.ExistingBatchesSpendNothing | internal/screens/indexView.go:310-317 | with batches present there is no balance query, withdrawal or purchase |
| Provisioning.AutoFundSelectsNothing | internal/screens/indexView.go:302-309 | the automatic path leaves `batch` and `selected_stamp` as they were |
| Selection.LastMatch | internal/screens/indexView.go:258-265 | the position found shares the selection's six-character prefix, and no later batch does; -1 means none does |
| Selection.SelectStampSpec | internal/screens/indexView.go:252-266 | empty selection clears both keys; with no matching batch nothing changes; otherwise `selected_stamp` is the selection and `batch` the hex of the last matching batch; no other key changes |
| Selection.SelectSnoc | internal/screens/indexView.go:259-264 | one more batch at the end either overwrites both keys (when it matches) or changes nothing |
| Selection.OnStampSelected | internal/screens/indexView.go:252-266 | the loop over the live batches, overwriting both keys at each match, ends with the preferences `SelectStamp` describes |
| Selection.MatchWritesApply | internal/screens/indexView.go:259-264 | replaying the callback's writes in order gives those same preferences |
| Selection.StampSelected | internal/screens/indexView.go:252-266 | the batch list is read iff the selection is non-empty; the store changes exactly by the traced writes; node and screen are untouched |
| Selection.SelectingShownIdPicksIt | internal/screens/indexView.go:259-264 | choosing a live batch's radio entry selects that batch when no other live batch shares its first three bytes |
| Selection.PrefixCollisionSelectsLast | internal/screens/indexView.go:259-264 | when two live batches share their first three bytes, choosing the first's entry selects the second |
| Selection.SelectionIdempotent | internal/screens/indexView.go:252-266 | running the callback twice with the same choice equals running it once |
| Upload.Submit | internal/screens/indexView.go:368-412 | no file or an empty `batch` fails before the upload call; the upload happens iff both are present and uses the stored batch; a failed upload changes nothing; a successful one appends one record to the history and changes no other key |
| Upload.UploadAppendsOne | internal/screens/indexView.go:394-412 | the history grows by exactly one record at the end, name and reference from the upload; earlier records keep place and value |
| Upload.UnreadableHistoryIsReplaced | internal/screens/indexView.go:394-401 | an unreadable stored history is reported and then replaced by the single new record |
| Upload.UploadsAccumulateInOrder | internal/screens/indexView.go:394-412 | a run of submissions appends one record per successful upload, in submission order, after the old history |
| Upload.SubmitKeepsConsistency | internal/screens/indexView.go:368-417 | uploading never shows the dashboard without a running node |

## Left out

- Widgets, layout, progress dialogs, clipboard, the file open and save
  dialogs, and `buyBatchDialog`: user interface only. Dialogs are reduced
  to the notices they carry.
- `main.go`: window setup only.
- The RPC client's answers are supplied in `RpcAnswers` and every bee-lite
  node operation's outcome in `Env`; each action consults each collaborator
  at most once.
- The 30-second wait before buying is the trace event `Wait(30)`; no time
  passes in the model.
- The peer-count refresh goroutine and the info card's peer count and
  overlay address display: a concurrent display loop with no effect on
  state. The unused `mtx` and `activeWindow` fields are not modelled.
- `go i.start(...)` and the upload goroutine: actions run one at a time.
- The JSON text of `uploads`: the history is a sequence of records, or
  `Unreadable`. A value Go's decoder rejects part-way (a type mismatch)
  is treated like one it rejects outright.
- The `json.Marshal` failure branch of the upload: it cannot fail for
  these records.
- The parse checks of the fixed stamp amount and depth: both constants
  parse, so those branches cannot be taken.
- `radio.SetSelected` of the stored `selected_stamp` after listing batches:
  Fyne's behaviour there is not visible.
- Clearing the file and path after every submit: form state only.
- The "All Uploads" list window and the download form (`ParseHexAddress`,
  `GetBzz`, saving the file).
- Log output.
- Go slices strings by byte. The model slices `seq<char>`, which agrees
  because every string sliced is ASCII hex or an address.
- Shorten.ShortenHashOrAddress: requires at least six characters, where Go
  panics instead.
- Selection.SelectStampSpec: requires the selection to be empty or at least
  six characters long, where Go panics instead. Batch ids are 32 bytes.
- Provisioning.LoadView: requires a running node, where Go would
  dereference a nil handle.

=== FILE: bootstrap.dfy ===
/** Bringing the node up: the launch-time auto-start, the password and RPC
    forms' guards, `start` and `initSwarm`. A start attempt persists the
    password and then the endpoint only after the node has started; when it
    fails, the overlay address is recovered from the keystore for display. */
module Bootstrap {
  import opened Outcomes
  import opened Preferences
  import opened NodeConfig
  import opened Session
  import opened Provisioning

  const Welcome: string := "welcome from bee-lite"

  /** The options `start` always uses: keystore and data directory are the
      app's storage root, and the profile is testnet. */
  function StartOptions(path: string, rpc: string): Options {
    NodeOptions(path, path, Welcome, rpc, false, ErrorLevel)
  }

  /** The effect of `initSwarm`, with the start error it returns, if any. */
  datatype Attempt = Attempt(session: Session, trace: seq<Event>, err: Option<string>)

  /** `initSwarm`: start the node with the built options; only if that
      succeeds, store the password and keep the node handle. */
  function InitSwarm(s: Session, keystore: string, dataDir: string, welcomeMessage: string,
                     password: string, swapEndpoint: string, mainnet: bool, logLevel: LogLevel,
                     env: Env): (r: Attempt)
    ensures |r.trace| >= 1
    ensures r.trace[0] == Call(StartNode(NodeOptions(keystore, dataDir, welcomeMessage, swapEndpoint, mainnet, logLevel), password))
    ensures r.err.Some? <==> env.start.Fail?
    ensures r.err.Some? ==> r.session == s && |r.trace| == 1 && r.err.value == env.start.error
    ensures r.err.None? ==>
              && r.trace == [r.trace[0], Write(PasswordKey, password)]
              && r.session.node == Some(env.start.value)
              && Get(r.session.store.prefs, PasswordKey) == password
              && r.session.screen == s.screen && r.session.stampOptions == s.stampOptions
    ensures r.session.store == ApplyTrace(s.store, r.trace)
    ensures NoProbe(r.trace)
  {
    var options := NodeOptions(keystore, dataDir, welcomeMessage, swapEndpoint, mainnet, logLevel);
    match env.start
    case Fail(e) =>
      ReadOnlyKeepsStore(s.store, [Call(StartNode(options, password))]);
      Attempt(s, [Call(StartNode(options, password))], Some(e))
    case Ok(handle) =>
      var store := s.store.(prefs := Set(s.store.prefs, PasswordKey, password));
      ApplyTraceTwo(s.store, Call(StartNode(options, password)), Write(PasswordKey, password));
      Attempt(s.(store := store, node := Some(handle)),
              [Call(StartNode(options, password)), Write(PasswordKey, password)], None)
  }

  /** The dialogs `start` shows after `loadView`: the error of `loadView`
      is shown by `loadView` and then a second time by `start`. */
  function AfterLoad(v: Loaded): seq<Notice> {
    if v.err.Some? then v.effect.shown + [ErrorShown(v.err.value)] else v.effect.shown
  }

  /** The failure branch of `start`: recover the overlay address from the
      keystore; show it with the start error, or, when recovery fails too,
      show only the recovery error. Nothing is persisted. */
  function StartFailed(s: Session, path: string, password: string, rpc: string,
                       cause: string, env: Env): (r: Effect)
    ensures r.session == s
    ensures r.trace == [Call(StartNode(StartOptions(path, rpc), password)), Call(RecoverOverlay(path, password))]
    ensures ReadOnly(r.trace) && r.session.store == ApplyTrace(s.store, r.trace)
    ensures NoProbe(r.trace)
    ensures env.overlay.Ok? ==> r.shown == [StartErrorWithAddress(env.overlay.value, cause)]
    ensures env.overlay.Fail? ==> r.shown == [ErrorShown(RecoveryFailed(env.overlay.error))]
  {
    var t := [Call(StartNode(StartOptions(path, rpc), password)), Call(RecoverOverlay(path, password))];
    ReadOnlyKeepsStore(s.store, t);
    match env.overlay
    case Fail(recoveryError) => Effect(s, t, [ErrorShown(RecoveryFailed(recoveryError))])
    case Ok(addr) => Effect(s, t, [StartErrorWithAddress(addr, cause)])
  }

  /** The success branch of `start`, after `initSwarm` stored the password:
      store the endpoint, then load the view. */
  function PersistEndpointAndLoad(s: Session, rpc: string, env: Env): (r: Effect)
    requires s.node.Some?
    ensures Writes(r.trace) == [Write(SwapEndpointKey, rpc)]
    ensures r.session.store == ApplyTrace(s.store, r.trace)
    ensures Get(r.session.store.prefs, SwapEndpointKey) == rpc
    ensures forall k :: k != SwapEndpointKey ==> Get(r.session.store.prefs, k) == Get(s.store.prefs, k)
    ensures r.session.store.uploads == s.store.uploads
    ensures r.session.node == s.node
    ensures r.session.screen != s.screen ==> r.session.screen == Dashboard
    ensures NoProbe(r.trace)
    ensures var v := LoadView(s.(store := s.store.(prefs := Set(s.store.prefs, SwapEndpointKey, rpc))), env);
            && r.trace == [Write(SwapEndpointKey, rpc)] + v.effect.trace
            && r.session == v.effect.session
            && r.shown == AfterLoad(v)
  {
    var s1 := s.(store := s.store.(prefs := Set(s.store.prefs, SwapEndpointKey, rpc)));
    var v := LoadView(s1, env);
    var t := [Write(SwapEndpointKey, rpc)] + v.effect.trace;
    WritesAppend([Write(SwapEndpointKey, rpc)], v.effect.trace);
    ReadOnlyHasNoWrites(v.effect.trace);
    ApplyTraceAppend(s.store, [Write(SwapEndpointKey, rpc)], v.effect.trace);
    ReadOnlyKeepsStore(s1.store, v.effect.trace);
    NoProbeAppend([Write(SwapEndpointKey, rpc)], v.effect.trace);
    Effect(v.effect.session, t, AfterLoad(v))
  }

  /** The success branch of `start`: `initSwarm` stored the password and
      kept the node, then the endpoint is stored and the view loads. */
  function Started(s: Session, path: string, password: string, rpc: string,
                   a: Attempt, env: Env): (r: Effect)
    requires a == InitSwarm(s, path, path, Welcome, password, rpc, false, ErrorLevel, env)
    requires a.err.None?
    ensures |r.trace| >= 1 && r.trace[0] == Call(StartNode(StartOptions(path, rpc), password))
    ensures Writes(r.trace) == [Write(PasswordKey, password), Write(SwapEndpointKey, rpc)]
    ensures r.session.node == Some(env.start.value)
    ensures r.session.store == ApplyTrace(s.store, r.trace)
    ensures forall k :: k != PasswordKey && k != SwapEndpointKey ==>
              Get(r.session.store.prefs, k) == Get(s.store.prefs, k)
    ensures r.session.store.uploads == s.store.uploads
    ensures r.session.screen != s.screen ==> r.session.screen == Dashboard
    ensures NoProbe(r.trace)
    ensures |env.batches| > 0 ==>
              && r.session.screen == Dashboard
              && r.session.stampOptions == ShortIds(env.batches)
              && r.shown == []
  {
    var p := PersistEndpointAndLoad(a.session, rpc, env);
    WritesAppend(a.trace, p.trace);
    ApplyTraceAppend(s.store, a.trace, p.trace);
    NoProbeAppend(a.trace, p.trace);
    assert Writes(a.trace) == [Write(PasswordKey, password)] by {
      WritesAppend([a.trace[0]], [Write(PasswordKey, password)]);
    }
    Effect(p.session, a.trace + p.trace, p.shown)
  }

  /** `start`: refuse a blank password before anything else; otherwise
      start the node on testnet. On failure nothing is persisted and the
      overlay address is recovered for the error dialog; on success the
      password and then the endpoint are persisted and the view loads. */
  function Start(s: Session, path: string, password: string, rpc: string, env: Env): (r: Effect)
    ensures password == "" ==> r == Effect(s, [], [ErrorShown(BlankPassword)])
    ensures password != "" ==> |r.trace| >= 1 && r.trace[0] == Call(StartNode(StartOptions(path, rpc), password))
    ensures password != "" && env.start.Fail? ==> r.session == s && ReadOnly(r.trace)
    ensures password != "" && env.start.Ok? ==>
              && Writes(r.trace) == [Write(PasswordKey, password), Write(SwapEndpointKey, rpc)]
              && r.session.node == Some(env.start.value)
    ensures r.session.store == ApplyTrace(s.store, r.trace)
    ensures forall k :: k != PasswordKey && k != SwapEndpointKey ==>
              Get(r.session.store.prefs, k) == Get(s.store.prefs, k)
    ensures r.session.store.uploads == s.store.uploads
    ensures r.session.screen != s.screen ==> r.session.screen == Dashboard && r.session.node.Some?
    ensures Consistent(s) ==> Consistent(r.session)
    ensures NoProbe(r.trace)
    ensures password != "" && env.start.Ok? && |env.batches| > 0 ==>
              && r.session.screen == Dashboard
              && r.session.stampOptions == ShortIds(env.batches)
              && r.shown == []
  {
    if password == "" then Effect(s, [], [ErrorShown(BlankPassword)])
    else
      var a := InitSwarm(s, path, path, Welcome, password, rpc, false, ErrorLevel, env);
      if a.err.Some? then StartFailed(s, path, password, rpc, a.err.value, env)
      else Started(s, path, password, rpc, a, env)
  }

  /** At launch: with both a stored password and a stored endpoint, show
      the waiting view and start the node straight away (with no endpoint
      check); otherwise show the password form and do nothing else. */
  function Launch(store: Store, path: string, env: Env): (r: Effect)
    ensures Consistent(r.session)
    ensures r.trace != [] <==>
              Get(store.prefs, PasswordKey) != "" && Get(store.prefs, SwapEndpointKey) != ""
    ensures r.trace != [] ==>
              r.trace[0] == Call(StartNode(StartOptions(path, Get(store.prefs, SwapEndpointKey)),
                                           Get(store.prefs, PasswordKey)))
    ensures r.trace == [] ==> r.session == Session(store, None, PasswordForm, []) && r.shown == []
    ensures r.session.store == ApplyTrace(store, r.trace)
    ensures NoProbe(r.trace)
  {
    var password := Get(store.prefs, PasswordKey);
    var endpoint := Get(store.prefs, SwapEndpointKey);
    if password != "" && endpoint != "" then
      Start(Session(store, None, Waiting, []), path, password, endpoint, env)
    else
      Effect(Session(store, None, PasswordForm, []), [], [])
  }

  /** The password form's "Next" button: a blank password is refused,
      anything else moves on to the RPC form holding it. */
  function PasswordNext(s: Session, text: string): (r: Effect)
    requires s.screen == PasswordForm
    ensures r.trace == [] && r.session.store == s.store && r.session.node == s.node
    ensures r.session.screen.RpcForm? <==> text != ""
    ensures r.session.screen.RpcForm? ==> r.session.screen.password == text && r.shown == []
    ensures text == "" ==> r.session == s && r.shown == [ErrorShown(BlankPassword)]
    ensures Consistent(s) ==> Consistent(r.session)
  {
    if text == "" then Effect(s, [], [ErrorShown(BlankPassword)])
    else Effect(s.(screen := RpcForm(text)), [], [])
  }

  /** The trace reached the point of starting the node. */
  predicate StartAttempted(t: seq<Event>) {
    exists e :: e in t && e.Call? && e.call.StartNode?
  }

  /** The RPC form's "Start" button: a blank endpoint, a failed dial and a
      failed chain-id query each stop before `start`; the chain id itself
      is not looked at. */
  function RpcStart(s: Session, path: string, endpoint: string, rpc: RpcAnswers, env: Env): (r: Effect)
    requires s.screen.RpcForm?
    ensures endpoint == "" ==> r == Effect(s, [], [ErrorShown(BlankEndpoint)])
    ensures endpoint != "" ==> |r.trace| >= 1 && r.trace[0] == Call(DialRpc(endpoint))
    ensures endpoint != "" && rpc.dial.Fail? ==>
              r == Effect(s, [Call(DialRpc(endpoint))], [ErrorShown(EndpointUnreachable)])
    ensures endpoint != "" && rpc.dial.Ok? && rpc.chainId.Fail? ==>
              r == Effect(s, [Call(DialRpc(endpoint)), Call(QueryChainId)],
                          [ErrorShown(EndpointRejected(rpc.chainId.error))])
    ensures StartAttempted(r.trace) <==>
              endpoint != "" && rpc.dial.Ok? && rpc.chainId.Ok? && s.screen.password != ""
    ensures endpoint != "" && rpc.dial.Ok? && rpc.chainId.Ok? && s.screen.password != "" ==>
              |r.trace| >= 3 && r.trace[2] == Call(StartNode(StartOptions(path, endpoint), s.screen.password))
    ensures endpoint != "" && rpc.dial.Ok? && rpc.chainId.Ok? && s.screen.password != "" && env.start.Ok? ==>
              && Writes(r.trace) == [Write(PasswordKey, s.screen.password), Write(SwapEndpointKey, endpoint)]
              && r.session.node == Some(env.start.value)
    ensures env.start.Fail? ==> r.session == s
    ensures r.session.store == ApplyTrace(s.store, r.trace)
    ensures Consistent(s) ==> Consistent(r.session)
  {
    if endpoint == "" then Effect(s, [], [ErrorShown(BlankEndpoint)])
    else if rpc.dial.Fail? then
      ReadOnlyKeepsStore(s.store, [Call(DialRpc(endpoint))]);
      Effect(s, [Call(DialRpc(endpoint))], [ErrorShown(EndpointUnreachable)])
    else
      var probed := [Call(DialRpc(endpoint)), Call(QueryChainId)];
      match rpc.chainId
      case Fail(e) =>
        ReadOnlyKeepsStore(s.store, probed);
        Effect(s, probed, [ErrorShown(EndpointRejected(e))])
      case Ok(_) =>
        ProbedStartAttempts(s, path, endpoint, env);
        ProbedStart(s, path, endpoint, env)
  }

  /** The RPC form's `start` once the endpoint answered both probes: the
      password held by the form and the endpoint just probed are passed
      on, the password blank or not. */
  function ProbedStart(s: Session, path: string, endpoint: string, env: Env): (r: Effect)
    requires s.screen.RpcForm?
    ensures |r.trace| >= 2 && r.trace[..2] == [Call(DialRpc(endpoint)), Call(QueryChainId)]
    ensures s.screen.password == "" ==>
              r == Effect(s, [Call(DialRpc(endpoint)), Call(QueryChainId)], [ErrorShown(BlankPassword)])
    ensures s.screen.password != "" ==>
              |r.trace| >= 3 && r.trace[2] == Call(StartNode(StartOptions(path, endpoint), s.screen.password))
    ensures s.screen.password != "" && env.start.Ok? ==>
              && Writes(r.trace) == [Write(PasswordKey, s.screen.password), Write(SwapEndpointKey, endpoint)]
              && r.session.node == Some(env.start.value)
    ensures env.start.Fail? ==> r.session == s
    ensures r.session.store == ApplyTrace(s.store, r.trace)
    ensures Consistent(s) ==> Consistent(r.session)
  {
    var probed := [Call(DialRpc(endpoint)), Call(QueryChainId)];
    ReadOnlyKeepsStore(s.store, probed);
    var st := Start(s, path, s.screen.password, endpoint, env);
    var t := probed + st.trace;
    ApplyTraceAppend(s.store, probed, st.trace);
    assert t[..2] == probed;
    if s.screen.password == "" then
      assert t == probed;
      Effect(st.session, t, st.shown)
    else
      WritesAppend(probed, st.trace);
      ReadOnlyHasNoWrites(probed);
      assert t[2] == st.trace[0];
      Effect(st.session, t, st.shown)
  }

  /** After both probes, the node start is reached iff the form holds a
      non-empty password. */
  lemma ProbedStartAttempts(s: Session, path: string, endpoint: string, env: Env)
    requires s.screen.RpcForm?
    ensures StartAttempted(ProbedStart(s, path, endpoint, env).trace) <==> s.screen.password != ""
  {
    var t := ProbedStart(s, path, endpoint, env).trace;
    if s.screen.password != "" {
      assert t[2] in t;
    }
  }

  /** A failed start shows the recovered address with the start error; if
      recovery fails as well, only the recovery error is shown and the
      start error is dropped. */
  lemma StartFailureReport(s: Session, path: string, password: string, rpc: string, env: Env)
    requires password != "" && env.start.Fail?
    ensures Calls(Start(s, path, password, rpc, env).trace) ==
              [StartNode(StartOptions(path, rpc), password), RecoverOverlay(path, password)]
    ensures env.overlay.Ok? ==>
              Start(s, path, password, rpc, env).shown == [StartErrorWithAddress(env.overlay.value, env.start.error)]
    ensures env.overlay.Fail? ==>
              Start(s, path, password, rpc, env).shown == [ErrorShown(RecoveryFailed(env.overlay.error))]
    ensures Start(s, path, password, rpc, env).session.node == s.node
  {
    var t := Start(s, path, password, rpc, env).trace;
    CallsAppend([t[0]], [t[1]]);
    assert t == [t[0]] + [t[1]];
  }

  /** Whatever endpoint it is given, `start` asks for the testnet profile. */
  lemma StartUsesTestnet(s: Session, path: string, password: string, rpc: string, env: Env)
    requires password != ""
    ensures var c := Start(s, path, password, rpc, env).trace[0].call;
            && c.StartNode?
            && c.options.chainID == TestnetChainID
            && c.options.networkID == 10
            && c.options.bootnodes == TestnetBootnodes
            && c.options.swapEndpoint == rpc
  {
  }

  /** When the node starts but provisioning fails, the password and the
      endpoint stay stored, the node stays up, the view does not change,
      and the provisioning error is shown twice. */
  lemma ProvisioningFailureKeepsCredentials(s: Session, path: string, password: string, rpc: string,
                                            env: Env, f: Failure)
    requires password != "" && env.start.Ok?
    requires LoadView(s.(store := s.store.(prefs := Set(Set(s.store.prefs, PasswordKey, password), SwapEndpointKey, rpc)),
                         node := Some(env.start.value)), env).err == Some(f)
    ensures var r := Start(s, path, password, rpc, env);
            && Get(r.session.store.prefs, PasswordKey) == password
            && Get(r.session.store.prefs, SwapEndpointKey) == rpc
            && r.session.node == Some(env.start.value)
            && r.session.screen == s.screen
            && r.shown == [ErrorShown(f), ErrorShown(f)]
  {
  }

  /** What a successful start stores is what the next launch starts from:
      relaunching starts the node with the same password and endpoint. */
  lemma StartIsRememberedAtLaunch(s: Session, path: string, password: string, rpc: string,
                                  env: Env, later: Env)
    requires password != "" && rpc != "" && env.start.Ok?
    ensures var relaunch := Launch(Start(s, path, password, rpc, env).session.store, path, later);
            && relaunch.trace != []
            && relaunch.trace[0] == Call(StartNode(StartOptions(path, rpc), password))
  {
    WritesGivePrefs(s, path, password, rpc, env);
  }

  /** The first start of a fresh node: with no batch yet and every
      provisioning step succeeding, the node is started, the password and
      endpoint are stored, the whole balance is withdrawn, a batch is bought
      after the pause, and the dashboard lists just that batch. */
  lemma FirstStartBuysAndListsStamp(s: Session, path: string, password: string, rpc: string, env: Env)
    requires password != "" && env.start.Ok? && |env.batches| == 0
    requires env.balance.Ok? && env.withdraw.Ok? && env.buy.Ok?
    ensures var r := Start(s, path, password, rpc, env);
            && r.session.screen == Dashboard
            && r.session.stampOptions == [ShortId(env.buy.value)]
            && r.session.node == Some(env.start.value)
            && r.shown == []
            && r.trace == [Call(StartNode(StartOptions(path, rpc), password)),
                           Write(PasswordKey, password), Write(SwapEndpointKey, rpc),
                           Call(GetAllBatches), Call(ChequebookBalance),
                           Call(ChequebookWithdraw(env.balance.value)), Wait(30),
                           Call(BuyStamp(100000000, 22, "", false))]
  {
  }

  /** A successful start leaves the password and the endpoint readable. */
  lemma WritesGivePrefs(s: Session, path: string, password: string, rpc: string, env: Env)
    requires password != "" && env.start.Ok?
    ensures Get(Start(s, path, password, rpc, env).session.store.prefs, PasswordKey) == password
    ensures Get(Start(s, path, password, rpc, env).session.store.prefs, SwapEndpointKey) == rpc
  {
    var a := InitSwarm(s, path, path, Welcome, password, rpc, false, ErrorLevel, env);
    assert Get(a.session.store.prefs, PasswordKey) == password;
  }

  /** A failed first start is not remembered: the next launch shows the
      password form again and calls nothing. */
  lemma FailedStartIsForgotten(s: Session, path: string, password: string, rpc: string,
                               env: Env, later: Env)
    requires Get(s.store.prefs, PasswordKey) == "" && env.start.Fail?
    ensures Launch(Start(s, path, password, rpc, env).session.store, path, later).trace == []
  {
  }

  /** A failed auto-start leaves the waiting view up with no node. */
  lemma FailedAutoStartKeepsWaiting(store: Store, path: string, env: Env)
    requires Get(store.prefs, PasswordKey) != "" && Get(store.prefs, SwapEndpointKey) != ""
    requires env.start.Fail?
    ensures Launch(store, path, env).session == Session(store, None, Waiting, [])
  {
  }

  /** The chain id the endpoint reports is not compared with anything: any
      two successful answers lead to the same result. */
  lemma ChainIdIsDiscarded(s: Session, path: string, endpoint: string, env: Env, id1: nat, id2: nat)
    requires s.screen.RpcForm?
    ensures RpcStart(s, path, endpoint, RpcAnswers(Ok(()), Ok(id1)), env) ==
            RpcStart(s, path, endpoint, RpcAnswers(Ok(()), Ok(id2)), env)
  {
  }
}

=== FILE: config.dfy ===
/** The start options handed to the storage node (`bee.Options`), built
    from a fixed literal and one testnet/mainnet switch. */
module NodeConfig {

  datatype LogLevel = PanicLevel | FatalLevel | ErrorLevel | WarnLevel | InfoLevel | DebugLevel | TraceLevel

  datatype Options = Options(
    fullNodeMode: bool,
    keystore: string,
    dataDir: string,
    addr: string,
    welcomeMessage: string,
    bootnodes: seq<string>,
    logLevel: LogLevel,
    swapEndpoint: string,
    swapInitialDeposit: string,
    swapEnable: bool,
    warmupTime: nat,
    chainID: nat,
    chequebookEnable: bool,
    chainEnable: bool,
    blockTime: nat,
    paymentThreshold: string,
    usePostageSnapshot: bool,
    mainnet: bool,
    networkID: nat,
    dbOpenFilesLimit: nat,
    dbWriteBufferSize: nat,
    dbDisableSeeksCompaction: bool,
    dbBlockCacheCapacity: nat,
    retrievalCaching: bool)

  const TestnetChainID: nat := 5
  const MainnetChainID: nat := 100

  const MainnetBootnodes: seq<string> := [
    "/ip4/142.132.198.19/tcp/32225/p2p/16Uiu2HAmRPHcJupNaUivskPocWKwLmpV2ApXkawesPAaJXv67y4b",
    "/ip4/142.132.208.116/tcp/32400/p2p/16Uiu2HAmJeGwCSzWo3mkRTsRd3fzxf7Fk1hkJ9dDkXmkxpjoNPmH",
    "/ip4/142.132.198.150/tcp/32259/p2p/16Uiu2HAmCvdVXazhxwCJbnqBqkB7pot7o4RbggTZVN7VrUYinxBx"
  ]

  const TestnetBootnodes: seq<string> := [
    "/ip4/65.108.101.3/tcp/32000/p2p/16Uiu2HAmBRwS1SF79jEz8dDNfdqQvUXophexSbE5PDxLCxVEuB38"
  ]

  const InitialDeposit: string := "10000000000000000"
  const PaymentThreshold: string := "100000000"
  const MiB: nat := 1024 * 1024

  /** The three fields a network profile decides. */
  datatype Profile = Profile(chainID: nat, networkID: nat, bootnodes: seq<string>)

  /** The profile table: testnet and mainnet. */
  function ProfileFor(mainnet: bool): Profile {
    if mainnet then Profile(MainnetChainID, 1, MainnetBootnodes)
    else Profile(TestnetChainID, 10, TestnetBootnodes)
  }

  function ProfileOf(o: Options): Profile {
    Profile(o.chainID, o.networkID, o.bootnodes)
  }

  /** The options with the profile fields blanked: what both profiles share. */
  function Shared(o: Options): Options {
    o.(chainID := 0, networkID := 0, bootnodes := [])
  }

  /** The options `initSwarm` builds: the testnet literal, overridden field
      by field when `mainnet` is set. */
  function NodeOptions(keystore: string, dataDir: string, welcomeMessage: string,
                       swapEndpoint: string, mainnet: bool, logLevel: LogLevel): (o: Options)
    ensures ProfileOf(o) == ProfileFor(mainnet)
    ensures o.mainnet
    ensures o.keystore == keystore && o.dataDir == dataDir
    ensures o.welcomeMessage == welcomeMessage && o.swapEndpoint == swapEndpoint
    ensures o.logLevel == logLevel
    ensures o.swapInitialDeposit == InitialDeposit && o.paymentThreshold == PaymentThreshold
    ensures o.addr == ":6969" && o.fullNodeMode
    ensures o.swapEnable && o.chequebookEnable && o.chainEnable
    ensures o.warmupTime == 0 && o.blockTime == 5 && !o.usePostageSnapshot
    ensures o.dbOpenFilesLimit == 50 && !o.dbDisableSeeksCompaction
    ensures o.dbWriteBufferSize == 32 * 1024 * 1024 && o.dbBlockCacheCapacity == 32 * 1024 * 1024
    ensures o.retrievalCaching
  {
    var o := Options(
      fullNodeMode := true,
      keystore := keystore,
      dataDir := dataDir,
      addr := ":6969",
      welcomeMessage := welcomeMessage,
      bootnodes := TestnetBootnodes,
      logLevel := logLevel,
      swapEndpoint := swapEndpoint,
      swapInitialDeposit := InitialDeposit,
      swapEnable := true,
      warmupTime := 0,
      chainID := TestnetChainID,
      chequebookEnable := true,
      chainEnable := true,
      blockTime := 5,
      paymentThreshold := PaymentThreshold,
      usePostageSnapshot := false,
      mainnet := true,
      networkID := 10,
      dbOpenFilesLimit := 50,
      dbWriteBufferSize := 32 * MiB,
      dbDisableSeeksCompaction := false,
      dbBlockCacheCapacity := 32 * MiB,
      retrievalCaching := true);
    if mainnet then
      o.(chainID := MainnetChainID, networkID := 1, mainnet := mainnet, bootnodes := MainnetBootnodes)
    else o
  }

  /** The switch changes the profile fields and nothing else: every other
      option, including `mainnet: true`, is the same in both profiles. */
  lemma ProfilesDifferOnlyInProfile(keystore: string, dataDir: string, welcomeMessage: string,
                                    swapEndpoint: string, logLevel: LogLevel)
    ensures Shared(NodeOptions(keystore, dataDir, welcomeMessage, swapEndpoint, true, logLevel))
         == Shared(NodeOptions(keystore, dataDir, welcomeMessage, swapEndpoint, false, logLevel))
    ensures NodeOptions(keystore, dataDir, welcomeMessage, swapEndpoint, true, logLevel)
         != NodeOptions(keystore, dataDir, welcomeMessage, swapEndpoint, false, logLevel)
  {
  }

  /** The profile is recoverable from the options alone, so the chain id,
      network id and bootnodes are never mixed across profiles. */
  lemma ProfileDeterminesSwitch(o: Options, keystore: string, dataDir: string, welcomeMessage: string,
                                swapEndpoint: string, mainnet: bool, logLevel: LogLevel)
    requires o == NodeOptions(keystore, dataDir, welcomeMessage, swapEndpoint, mainnet, logLevel)
    ensures mainnet <==> o.chainID == MainnetChainID
    ensures mainnet <==> o.networkID == 1
    ensures mainnet <==> o.bootnodes == MainnetBootnodes
  {
    assert MainnetBootnodes != TestnetBootnodes by {
      assert |MainnetBootnodes| != |TestnetBootnodes|;
    }
  }
}

=== FILE: hex.dfy ===
/** Lower-case hexadecimal encoding of byte strings, as produced by Go's
    `hex.EncodeToString`, with the decoder that inverts it. Stamp
    identifiers are compared by the first six characters of this encoding,
    so the facts proved here (length, round trip, prefix) are what the
    selection logic rests on. */
module Hex {
  import opened Outcomes

  type byte = b: int | 0 <= b < 256

  /** The lower-case hex digit of a value below 16. */
  function DigitChar(n: int): char
    requires 0 <= n < 16
  {
    if n < 10 then ('0' as int + n) as char else ('a' as int + n - 10) as char
  }

  predicate IsHexDigit(c: char) {
    '0' <= c <= '9' || 'a' <= c <= 'f'
  }

  /** The numeric value of one lower-case hex digit, if it is one. */
  function DigitValue(c: char): (r: Option<int>)
    ensures r.Some? <==> IsHexDigit(c)
    ensures r.Some? ==> 0 <= r.value < 16 && DigitChar(r.value) == c
  {
    if '0' <= c <= '9' then Some(c as int - '0' as int)
    else if 'a' <= c <= 'f' then Some(c as int - 'a' as int + 10)
    else None
  }

  /** The two digits of one byte, high nibble first. */
  function EncodeByte(b: byte): string {
    [DigitChar(b / 16), DigitChar(b % 16)]
  }

  /** Hex encoding: two lower-case digits per byte, in byte order. */
  function Encode(bs: seq<byte>): (r: string)
    ensures |r| == 2 * |bs|
  {
    if bs == [] then "" else EncodeByte(bs[0]) + Encode(bs[1..])
  }

  /** Hex decoding; fails on an odd length or a character that is not a
      lower-case hex digit. */
  function Decode(s: string): (r: Option<seq<byte>>)
    ensures r.Some? ==> 2 * |r.value| == |s|
    decreases |s|
  {
    if s == [] then Some([])
    else if |s| == 1 then None
    else
      match (DigitValue(s[0]), DigitValue(s[1]))
      case (Some(hi), Some(lo)) =>
        (match Decode(s[2..])
         case Some(rest) => Some([hi * 16 + lo] + rest)
         case None => None)
      case _ => None
  }

  lemma EncodeByteRoundTrip(b: byte)
    ensures DigitValue(EncodeByte(b)[0]) == Some(b / 16)
    ensures DigitValue(EncodeByte(b)[1]) == Some(b % 16)
  {
  }

  /** Decoding peels one encoded byte off the front. */
  lemma DecodeStep(b: byte, rest: string)
    ensures Decode(EncodeByte(b) + rest) ==
      match Decode(rest)
      case Some(tail) => Some([b] + tail)
      case None => None
  {
    var s := EncodeByte(b) + rest;
    EncodeByteRoundTrip(b);
    assert s[0] == EncodeByte(b)[0] && s[1] == EncodeByte(b)[1];
    assert s[2..] == rest;
    assert b / 16 * 16 + b % 16 == b;
  }

  /** Decoding an encoding gives back the bytes. */
  lemma {:induction false} RoundTrip(bs: seq<byte>)
    ensures Decode(Encode(bs)) == Some(bs)
  {
    if bs != [] {
      RoundTrip(bs[1..]);
      DecodeStep(bs[0], Encode(bs[1..]));
      assert [bs[0]] + bs[1..] == bs;
    }
  }

  /** The encoding of a prefix is the prefix of the encoding. */
  lemma {:induction false} EncodePrefix(bs: seq<byte>, k: nat)
    requires k <= |bs|
    ensures Encode(bs)[..2 * k] == Encode(bs[..k])
  {
    if k > 0 {
      EncodePrefix(bs[1..], k - 1);
      assert bs[..k][1..] == bs[1..][..k - 1];
    }
  }

  /** Two byte strings agree on their first six hex characters exactly when
      they agree on their first three bytes. */
  lemma SixDigitPrefix(a: seq<byte>, b: seq<byte>)
    requires |a| >= 3 && |b| >= 3
    ensures Encode(a)[..6] == Encode(b)[..6] <==> a[..3] == b[..3]
  {
    EncodePrefix(a, 3);
    EncodePrefix(b, 3);
    if Encode(a)[..6] == Encode(b)[..6] {
      RoundTrip(a[..3]);
      RoundTrip(b[..3]);
    }
  }
}

=== FILE: outcomes.dfy ===
/** Result wrappers shared by the model: an optional value, and the
    success-or-error outcome that every external collaborator (the RPC
    client, the storage node, the address recovery) hands back. */
module Outcomes {

  /** A value that may be absent. */
  datatype Option<+T> = None | Some(value: T)

  /** The result of a call into code outside the model: a value, or the
      error text the collaborator reported (Go's `error`). */
  datatype Outcome<+T> = Ok(value: T) | Fail(error: string)
}

=== FILE: preferences.dfy ===
/** The application's persistent preference store, seen as a string map
    with Fyne's reading convention (a missing key reads as ""), plus the
    `uploads` history that the upload form keeps under its own key. */
module Preferences {

  type Prefs = map<string, string>

  const PasswordKey: string := "password"
  const SwapEndpointKey: string := "SwapEndpoint"
  const SelectedStampKey: string := "selected_stamp"
  const BatchKey: string := "batch"

  /** `Preferences().String(key)`: the stored value, or "" when absent. */
  function Get(p: Prefs, key: string): string {
    if key in p then p[key] else ""
  }

  /** `Preferences().SetString(key, value)`: last write wins per key. */
  function Set(p: Prefs, key: string, value: string): (r: Prefs)
    ensures Get(r, key) == value
    ensures forall k :: k != key ==> Get(r, k) == Get(p, k)
  {
    p[key := value]
  }

  /** Writing the same two keys again hides the first pair of writes. */
  lemma SetPairOverwrites(p: Prefs, k1: string, k2: string, a1: string, a2: string, b1: string, b2: string)
    ensures Set(Set(Set(Set(p, k1, a1), k2, a2), k1, b1), k2, b2) == Set(Set(p, k1, b1), k2, b2)
  {
  }

  /** One entry of the uploads history (`uploadedItem`). */
  datatype UploadRecord = UploadRecord(
    name: string,
    reference: string,
    size: int,
    timestamp: int,
    mimetype: string)

  /** The value stored under `uploads`: nothing yet, a readable list, or a
      value the JSON decoder rejects. Its serialised text is not modelled. */
  datatype UploadHistory = NoHistory | History(records: seq<UploadRecord>) | Unreadable

  /** What the upload form starts from when it appends: the stored list,
      or the empty list when nothing is stored or the value cannot be read. */
  function LoadUploads(h: UploadHistory): seq<UploadRecord> {
    match h
    case History(rs) => rs
    case _ => []
  }

  /** The whole persisted state. */
  datatype Store = Store(prefs: Prefs, uploads: UploadHistory)
}

=== FILE: provisioning.dfy ===
/** The stamp part of `loadView`: list the node's postage batches; with
    none, fund and buy one automatically (balance, withdraw the whole
    balance, wait, buy with fixed parameters); with some, list them. */
module Provisioning {
  import opened Outcomes
  import opened Hex
  import opened Shorten
  import opened Preferences
  import opened Session

  /** The fixed purchase parameters of the automatic path. */
  const StampAmount: nat := 100000000
  const StampDepth: nat := 22
  /** The fixed pause between the withdrawal and the purchase. */
  const SettlementSeconds: nat := 30

  /** The radio entry shown for a batch. */
  function ShortId(id: BatchId): string {
    ShortenHashOrAddress(Encode(id))
  }

  function ShortIds(ids: seq<BatchId>): (r: seq<string>)
    ensures |r| == |ids|
    ensures forall i :: 0 <= i < |ids| ==> r[i] == ShortId(ids[i])
  {
    seq(|ids|, i requires 0 <= i < |ids| => ShortId(ids[i]))
  }

  /** The effect of `loadView`, with the error it returns, if any. */
  datatype Loaded = Loaded(effect: Effect, err: Option<Failure>)

  /** The zero-batch branch of `loadView`: it succeeds exactly when the
      balance query, the withdrawal and the purchase all succeed, writes no
      preference, and then lists only the new batch. */
  function AutoFund(s: Session, env: Env): (r: Loaded)
    requires s.node.Some?
    ensures r.effect.session.store == s.store && r.effect.session.node == s.node
    ensures ReadOnly(r.effect.trace) && NoProbe(r.effect.trace)
    ensures |r.effect.trace| >= 2 && r.effect.trace[0] == Call(GetAllBatches) && r.effect.trace[1] == Call(ChequebookBalance)
    ensures r.err.None? <==> env.balance.Ok? && env.withdraw.Ok? && env.buy.Ok?
    ensures r.err.Some? ==> r.effect.session == s && r.effect.shown == [ErrorShown(r.err.value)]
    ensures r.err.None? ==>
              && r.effect.session == s.(screen := Dashboard, stampOptions := [ShortId(env.buy.value)])
              && r.effect.shown == []
  {
    var t1 := [Call(GetAllBatches), Call(ChequebookBalance)];
    match env.balance
    case Fail(e) => Loaded(Effect(s, t1, [ErrorShown(BalanceFailed(e))]), Some(BalanceFailed(e)))
    case Ok(balance) =>
      var t2 := [Call(GetAllBatches), Call(ChequebookBalance), Call(ChequebookWithdraw(balance))];
      match env.withdraw
      case Fail(e) => Loaded(Effect(s, t2, [ErrorShown(WithdrawFailed(e))]), Some(WithdrawFailed(e)))
      case Ok(_) =>
        var t3 := [Call(GetAllBatches), Call(ChequebookBalance), Call(ChequebookWithdraw(balance)),
                   Wait(SettlementSeconds), Call(BuyStamp(StampAmount, StampDepth, "", false))];
        match env.buy
        case Fail(e) => Loaded(Effect(s, t3, [ErrorShown(PurchaseFailed(e))]), Some(PurchaseFailed(e)))
        case Ok(id) => Loaded(Effect(s.(screen := Dashboard, stampOptions := [ShortId(id)]), t3, []), None)
  }

  /** `loadView` reads the node (so it needs one) and never writes a
      preference. With batches present it makes no further node call and
      lists them; with none, it takes the automatic path. An error is shown
      once here and leaves the session as it was. */
  function LoadView(s: Session, env: Env): (r: Loaded)
    requires s.node.Some?
    ensures r.effect.session.store == s.store
    ensures r.effect.session.node == s.node
    ensures ReadOnly(r.effect.trace) && NoProbe(r.effect.trace)
    ensures |r.effect.trace| >= 1 && r.effect.trace[0] == Call(GetAllBatches)
    ensures r.err.Some? ==> r.effect.session == s && r.effect.shown == [ErrorShown(r.err.value)]
    ensures r.err.None? ==> r.effect.session.screen == Dashboard && r.effect.shown == []
    ensures |env.batches| > 0 ==>
              && r.err.None?
              && Calls(r.effect.trace) == [GetAllBatches]
              && r.effect.session.stampOptions == ShortIds(env.batches)
    ensures |env.batches| == 0 ==>
              (r.err.None? <==> env.balance.Ok? && env.withdraw.Ok? && env.buy.Ok?)
    ensures |env.batches| == 0 && r.err.None? ==>
              r.effect.session.stampOptions == [ShortId(env.buy.value)]
  {
    if |env.batches| == 0 then AutoFund(s, env)
    else Loaded(Effect(s.(screen := Dashboard, stampOptions := ShortIds(env.batches)), [Call(GetAllBatches)], []), None)
  }

  /** With no batch and every step succeeding, the node sees exactly: list,
      balance, one withdrawal of the whole balance, the pause, one purchase
      with the fixed amount and depth, no label, mutable. */
  lemma AutoFundSequence(s: Session, env: Env, balance: nat, id: BatchId)
    requires s.node.Some?
    requires |env.batches| == 0 && env.balance == Ok(balance) && env.withdraw.Ok? && env.buy == Ok(id)
    ensures LoadView(s, env).effect.trace ==
              [Call(GetAllBatches), Call(ChequebookBalance), Call(ChequebookWithdraw(balance)),
               Wait(SettlementSeconds), Call(BuyStamp(100000000, 22, "", false))]
    ensures LoadView(s, env).err.None?
  {
  }

  /** The first failing step ends the automatic path: nothing after it is
      called, and the error is that step's. */
  lemma AutoFundStopsAtFirstError(s: Session, env: Env)
    requires s.node.Some? && |env.batches| == 0
    ensures env.balance.Fail? ==>
              && LoadView(s, env).effect.trace == [Call(GetAllBatches), Call(ChequebookBalance)]
              && LoadView(s, env).err == Some(BalanceFailed(env.balance.error))
    ensures env.balance.Ok? && env.withdraw.Fail? ==>
              && LoadView(s, env).effect.trace ==
                   [Call(GetAllBatches), Call(ChequebookBalance), Call(ChequebookWithdraw(env.balance.value))]
              && LoadView(s, env).err == Some(WithdrawFailed(env.withdraw.error))
    ensures env.balance.Ok? && env.withdraw.Ok? && env.buy.Fail? ==>
              LoadView(s, env).err == Some(PurchaseFailed(env.buy.error))
  {
  }

  /** There is no minimum: whatever the balance, zero included, the one
      withdrawal asks for all of it. */
  lemma WithdrawsWholeBalance(s: Session, env: Env)
    requires s.node.Some? && |env.batches| == 0 && env.balance.Ok?
    ensures |LoadView(s, env).effect.trace| >= 3
    ensures LoadView(s, env).effect.trace[2] == Call(ChequebookWithdraw(env.balance.value))
    ensures forall e :: e in LoadView(s, env).effect.trace && e.Call? && e.call.ChequebookWithdraw? ==>
              e.call.amount == env.balance.value
  {
  }

  /** With batches present the node is never asked to spend. */
  lemma ExistingBatchesSpendNothing(s: Session, env: Env)
    requires s.node.Some? && |env.batches| > 0
    ensures forall c :: c in Calls(LoadView(s, env).effect.trace) ==>
              !c.ChequebookWithdraw? && !c.BuyStamp? && !c.ChequebookBalance?
  {
  }

  /** The automatic path shows the new batch but selects nothing: neither
      `batch` nor `selected_stamp` is written. */
  lemma AutoFundSelectsNothing(s: Session, env: Env)
    requires s.node.Some? && |env.batches| == 0
    ensures Get(LoadView(s, env).effect.session.store.prefs, BatchKey) == Get(s.store.prefs, BatchKey)
    ensures Get(LoadView(s, env).effect.session.store.prefs, SelectedStampKey) == Get(s.store.prefs, SelectedStampKey)
  {
  }
}

=== FILE: selection.dfy ===
/** The stamp radio's change callback: the displayed short id is resolved
    to a live batch by its first six hex characters, and the choice is
    stored under `selected_stamp` (the display form) and `batch` (the full
    hex id). Clearing the radio clears both keys. */
module Selection {
  import opened Hex
  import opened Preferences
  import opened Session
  import opened Provisioning

  /** The displayed id `s` and the batch agree on their first six characters. */
  predicate SharesPrefix(s: string, id: BatchId)
    requires |s| >= 6
  {
    s[..6] == Encode(id)[..6]
  }

  /** The position of the last live batch, in list order, that shares
      `s`'s prefix, or -1 when none does. */
  function LastMatch(live: seq<BatchId>, s: string): (r: int)
    requires |s| >= 6
    ensures -1 <= r < |live|
    ensures r >= 0 ==> SharesPrefix(s, live[r])
    ensures forall j :: r < j < |live| ==> !SharesPrefix(s, live[j])
    decreases |live|
  {
    if live == [] then -1
    else if SharesPrefix(s, live[|live| - 1]) then |live| - 1
    else LastMatch(live[..|live| - 1], s)
  }

  /** The preferences after the callback: cleared by an empty selection;
      otherwise both keys set from the last matching live batch, if any.
      Go slices `s[0:6]`, so a non-empty selection shorter than six
      characters would panic; the radio only ever offers shortened ids. */
  function SelectStamp(prefs: Prefs, s: string, live: seq<BatchId>): Prefs
    requires s == "" || |s| >= 6
  {
    if s == "" then Set(Set(prefs, SelectedStampKey, ""), BatchKey, "")
    else
      var k := LastMatch(live, s);
      if k < 0 then prefs
      else Set(Set(prefs, SelectedStampKey, s), BatchKey, Encode(live[k]))
  }

  /** What the callback promises: no key but the two changes; an empty
      selection clears both; a selection no live batch matches changes
      nothing; otherwise `selected_stamp` is the selection and `batch` is
      the hex id of the last matching live batch. */
  lemma SelectStampSpec(prefs: Prefs, s: string, live: seq<BatchId>)
    requires s == "" || |s| >= 6
    ensures var r := SelectStamp(prefs, s, live);
            forall k :: k != SelectedStampKey && k != BatchKey ==> Get(r, k) == Get(prefs, k)
    ensures s == "" ==>
              Get(SelectStamp(prefs, s, live), SelectedStampKey) == "" && Get(SelectStamp(prefs, s, live), BatchKey) == ""
    ensures s != "" && (forall i :: 0 <= i < |live| ==> !SharesPrefix(s, live[i])) ==>
              SelectStamp(prefs, s, live) == prefs
    ensures s != "" && (exists i :: 0 <= i < |live| && SharesPrefix(s, live[i])) ==>
              var r := SelectStamp(prefs, s, live);
              && Get(r, SelectedStampKey) == s
              && exists i :: 0 <= i < |live| && Get(r, BatchKey) == Encode(live[i]) && SharesPrefix(s, live[i])
                             && forall j :: i < j < |live| ==> !SharesPrefix(s, live[j])
  {
    if s != "" {
      var k := LastMatch(live, s);
      if k >= 0 {
        assert Get(SelectStamp(prefs, s, live), BatchKey) == Encode(live[k]);
      }
    }
  }

  /** One more batch at the end of the list either overwrites both keys
      (when it matches) or changes nothing. */
  lemma SelectSnoc(prefs: Prefs, s: string, xs: seq<BatchId>, x: BatchId)
    requires |s| >= 6
    ensures SelectStamp(prefs, s, xs + [x]) ==
              if SharesPrefix(s, x) then Set(Set(SelectStamp(prefs, s, xs), SelectedStampKey, s), BatchKey, Encode(x))
              else SelectStamp(prefs, s, xs)
  {
    var ys := xs + [x];
    assert ys[..|ys| - 1] == xs && ys[|ys| - 1] == x;
    if SharesPrefix(s, x) {
      assert LastMatch(ys, s) == |xs|;
      var k := LastMatch(xs, s);
      if k >= 0 {
        SetPairOverwrites(prefs, SelectedStampKey, BatchKey, s, Encode(xs[k]), s, Encode(x));
      }
    } else {
      assert LastMatch(ys, s) == LastMatch(xs, s);
    }
  }

  /** The callback as the Go code writes it: walk the live batches in order
      and, at every batch whose hex shares the prefix, overwrite both keys. */
  method OnStampSelected(prefs: Prefs, s: string, live: seq<BatchId>) returns (p: Prefs)
    requires s == "" || |s| >= 6
    ensures p == SelectStamp(prefs, s, live)
  {
    if s == "" {
      p := Set(prefs, SelectedStampKey, "");
      p := Set(p, BatchKey, "");
      return;
    }
    p := prefs;
    var i := 0;
    assert live[..0] == [];
    while i < |live|
      invariant 0 <= i <= |live|
      invariant p == SelectStamp(prefs, s, live[..i])
    {
      var stamp := Encode(live[i]);
      SelectSnoc(prefs, s, live[..i], live[i]);
      assert live[..i + 1] == live[..i] + [live[i]];
      if s[..6] == stamp[..6] {
        p := Set(p, SelectedStampKey, s);
        p := Set(p, BatchKey, stamp);
      }
      i := i + 1;
    }
    assert live[..|live|] == live;
  }

  /** The writes the callback makes for a non-empty selection, in order:
      both keys once per matching batch. */
  function MatchWrites(live: seq<BatchId>, s: string): seq<Event>
    requires |s| >= 6
    decreases |live|
  {
    if live == [] then []
    else
      var last := live[|live| - 1];
      MatchWrites(live[..|live| - 1], s)
        + (if SharesPrefix(s, last) then [Write(SelectedStampKey, s), Write(BatchKey, Encode(last))] else [])
  }

  /** Replaying the callback's writes gives the preferences it promises. */
  lemma {:induction false} MatchWritesApply(st: Store, live: seq<BatchId>, s: string)
    requires |s| >= 6
    ensures ApplyTrace(st, MatchWrites(live, s)) == st.(prefs := SelectStamp(st.prefs, s, live))
    decreases |live|
  {
    if live == [] {
      assert st.(prefs := SelectStamp(st.prefs, s, live)) == st;
    } else {
      var init := live[..|live| - 1];
      var last := live[|live| - 1];
      assert live == init + [last];
      var tail := if SharesPrefix(s, last) then [Write(SelectedStampKey, s), Write(BatchKey, Encode(last))] else [];
      assert MatchWrites(live, s) == MatchWrites(init, s) + tail;
      MatchWritesApply(st, init, s);
      ApplyTraceAppend(st, MatchWrites(init, s), tail);
      SelectSnoc(st.prefs, s, init, last);
      if SharesPrefix(s, last) {
        ApplyTraceTwo(st.(prefs := SelectStamp(st.prefs, s, init)), tail[0], tail[1]);
      }
    }
  }

  /** The callback on the session: a non-empty selection first lists the
      live batches; the store changes exactly by the writes it traces. */
  function StampSelected(ses: Session, s: string, live: seq<BatchId>): (r: Effect)
    requires s == "" || |s| >= 6
    ensures r.session.store == ApplyTrace(ses.store, r.trace)
    ensures r.session.store.prefs == SelectStamp(ses.store.prefs, s, live)
    ensures (s == "") <==> GetAllBatches !in Calls(r.trace)
    ensures r.session.node == ses.node && r.session.screen == ses.screen && r.shown == []
    ensures Consistent(ses) ==> Consistent(r.session)
  {
    if s == "" then
      var t := [Write(SelectedStampKey, ""), Write(BatchKey, "")];
      ApplyTraceTwo(ses.store, t[0], t[1]);
      CallsMembership(t, GetAllBatches);
      Effect(ses.(store := ApplyTrace(ses.store, t)), t, [])
    else
      var t := [Call(GetAllBatches)] + MatchWrites(live, s);
      MatchWritesApply(ApplyEvent(ses.store, Call(GetAllBatches)), live, s);
      CallsMembership(t, GetAllBatches);
      assert t[0] == Call(GetAllBatches);
      Effect(ses.(store := ses.store.(prefs := SelectStamp(ses.store.prefs, s, live))), t, [])
  }

  /** Choosing the radio entry of a live batch selects that batch, provided
      no other live batch shares its first three bytes. */
  lemma SelectingShownIdPicksIt(prefs: Prefs, id: BatchId, live: seq<BatchId>)
    requires id in live
    requires forall other :: other in live && other[..3] == id[..3] ==> other == id
    ensures Get(SelectStamp(prefs, ShortId(id), live), SelectedStampKey) == ShortId(id)
    ensures Get(SelectStamp(prefs, ShortId(id), live), BatchKey) == Encode(id)
  {
    var s := ShortId(id);
    var k :| 0 <= k < |live| && live[k] == id;
    assert SharesPrefix(s, live[k]);
    var r := SelectStamp(prefs, s, live);
    var i :| 0 <= i < |live| && Get(r, BatchKey) == Encode(live[i]) && SharesPrefix(s, live[i]);
    SixDigitPrefix(live[i], id);
  }

  /** When two live batches share their first three bytes, choosing the
      first one's entry selects the later one: the last match wins. */
  lemma PrefixCollisionSelectsLast(prefs: Prefs, a: BatchId, b: BatchId)
    requires a[..3] == b[..3]
    ensures Get(SelectStamp(prefs, ShortId(a), [a, b]), BatchKey) == Encode(b)
  {
    SixDigitPrefix(a, b);
    var s := ShortId(a);
    assert SharesPrefix(s, b);
    assert LastMatch([a, b], s) == 1;
  }

  /** Running the callback twice with the same choice is the same as once. */
  lemma SelectionIdempotent(prefs: Prefs, s: string, live: seq<BatchId>)
    requires s == "" || |s| >= 6
    ensures SelectStamp(SelectStamp(prefs, s, live), s, live) == SelectStamp(prefs, s, live)
  {
  }
}

=== FILE: session.dfy ===
/** The vocabulary shared by the orchestration modules: the outcomes the
    external collaborators return, the trace of what an action did (calls
    out, waits, preference writes, in order), the dialogs it showed, and
    the session state it leaves behind. */
module Session {
  import opened Outcomes
  import opened Hex
  import opened Preferences
  import opened NodeConfig

  /** A postage batch identifier: 32 bytes. */
  type BatchId = b: seq<byte> | |b| == 32 witness seq(32, _ => 0)

  /** The running node returned by `bee.Start`; opaque to this model. */
  datatype NodeHandle = NodeHandle(token: nat)

  /** A node's overlay (on-chain) address, as text. */
  type Address = string

  /** A call into a collaborator outside the model. */
  datatype NodeCall =
    | DialRpc(endpoint: string)
    | QueryChainId
    | StartNode(options: Options, password: string)
    | RecoverOverlay(dataDir: string, password: string)
    | GetAllBatches
    | ChequebookBalance
    | ChequebookWithdraw(amount: nat)
    | BuyStamp(amount: nat, depth: nat, stampLabel: string, immutable: bool)
    | AddFile(batch: string, name: string, mimetype: string, content: seq<byte>)

  /** One observable step of an action. */
  datatype Event =
    | Call(call: NodeCall)
    | Wait(seconds: nat)
    | Write(key: string, value: string)
    | SaveUploads(records: seq<UploadRecord>)

  /** What the RPC client answers: `ethclient.Dial`, then `ChainID`. */
  datatype RpcAnswers = RpcAnswers(dial: Outcome<()>, chainId: Outcome<nat>)

  /** What the node side answers when the action calls it: `bee.Start`,
      `bee.OverlayAddr`, and the running node's operations. */
  datatype Env = Env(
    start: Outcome<NodeHandle>,
    overlay: Outcome<Address>,
    batches: seq<BatchId>,
    balance: Outcome<nat>,
    withdraw: Outcome<string>,
    buy: Outcome<BatchId>,
    upload: Outcome<string>)

  /** The errors the application shows. The guard refusals and the
      unreachable endpoint carry a fixed message; `EndpointRejected` is
      shown as "rpc endpoint: " and its cause; `RecoveryFailed`,
      `BalanceFailed`, `WithdrawFailed`, `PurchaseFailed` and `UploadFailed`
      are shown as the collaborator's error text alone, with no fixed
      message and no name of the failing step. */
  datatype Failure =
    | BlankPassword
    | BlankEndpoint
    | EndpointUnreachable
    | EndpointRejected(cause: string)
    | RecoveryFailed(cause: string)
    | BalanceFailed(cause: string)
    | WithdrawFailed(cause: string)
    | PurchaseFailed(cause: string)
    | NoFileSelected
    | NoBatchSelected
    | UploadFailed(cause: string)
    | UploadsUnreadable

  /** A dialog shown to the user. */
  datatype Notice =
    | ErrorShown(failure: Failure)
    | StartErrorWithAddress(addr: Address, cause: string)
    | UploadSucceeded(reference: string)

  /** Which content the main view shows. */
  datatype Screen = PasswordForm | RpcForm(password: string) | Waiting | Dashboard

  datatype Session = Session(
    store: Store,
    node: Option<NodeHandle>,
    screen: Screen,
    stampOptions: seq<string>)

  /** What one user or startup action leaves behind. */
  datatype Effect = Effect(session: Session, trace: seq<Event>, shown: seq<Notice>)

  /** The dashboard is only ever shown for a running node, and the RPC form
      only ever holds a password that passed the blank check. */
  predicate Consistent(s: Session) {
    && (s.screen == Dashboard ==> s.node.Some?)
    && (s.screen.RpcForm? ==> s.screen.password != "")
  }

  /** The persisted effect of one event. */
  function ApplyEvent(st: Store, e: Event): Store {
    match e
    case Write(k, v) => st.(prefs := Set(st.prefs, k, v))
    case SaveUploads(rs) => st.(uploads := History(rs))
    case _ => st
  }

  predicate IsWrite(e: Event) {
    e.Write? || e.SaveUploads?
  }

  /** The trace writes nothing. */
  predicate ReadOnly(t: seq<Event>) {
    forall i :: 0 <= i < |t| ==> !IsWrite(t[i])
  }

  /** The call dials the RPC endpoint or asks it for its chain id. */
  predicate IsProbe(e: Event) {
    e.Call? && (e.call.DialRpc? || e.call.QueryChainId?)
  }

  /** The trace never uses the RPC client. */
  predicate NoProbe(t: seq<Event>) {
    forall i :: 0 <= i < |t| ==> !IsProbe(t[i])
  }

  /** Two traces that never use the RPC client, one after the other. */
  lemma NoProbeAppend(a: seq<Event>, b: seq<Event>)
    requires NoProbe(a) && NoProbe(b)
    ensures NoProbe(a + b)
  {
  }

  /** Replaying a trace's writes, in order, against a store. */
  function ApplyTrace(st: Store, t: seq<Event>): Store
    decreases |t|
  {
    if t == [] then st else ApplyTrace(ApplyEvent(st, t[0]), t[1..])
  }

  /** The collaborator calls of a trace, in order. */
  function Calls(t: seq<Event>): seq<NodeCall> {
    if t == [] then [] else (if t[0].Call? then [t[0].call] else []) + Calls(t[1..])
  }

  /** The preference writes of a trace, in order. */
  function Writes(t: seq<Event>): seq<Event>
    decreases |t|
  {
    if t == [] then [] else (if IsWrite(t[0]) then [t[0]] else []) + Writes(t[1..])
  }

  /** A read-only trace leaves every store as it was. */
  lemma {:induction false} ReadOnlyKeepsStore(st: Store, t: seq<Event>)
    requires ReadOnly(t)
    ensures ApplyTrace(st, t) == st
    decreases |t|
  {
    if t != [] {
      assert ReadOnly(t[1..]) by {
        forall i | 0 <= i < |t[1..]| ensures !IsWrite(t[1..][i]) {
          assert t[1..][i] == t[i + 1];
        }
      }
      ReadOnlyKeepsStore(ApplyEvent(st, t[0]), t[1..]);
    }
  }

  /** A read-only trace has no writes to list. */
  lemma {:induction false} ReadOnlyHasNoWrites(t: seq<Event>)
    requires ReadOnly(t)
    ensures Writes(t) == []
    decreases |t|
  {
    if t != [] {
      assert ReadOnly(t[1..]) by {
        forall i | 0 <= i < |t[1..]| ensures !IsWrite(t[1..][i]) {
          assert t[1..][i] == t[i + 1];
        }
      }
      ReadOnlyHasNoWrites(t[1..]);
    }
  }

  /** A call is among a trace's calls exactly when the trace holds it. */
  lemma {:induction false} CallsMembership(t: seq<Event>, c: NodeCall)
    ensures c in Calls(t) <==> Call(c) in t
    decreases |t|
  {
    if t != [] {
      CallsMembership(t[1..], c);
      assert t == [t[0]] + t[1..];
    }
  }

  lemma {:induction false} ApplyTraceAppend(st: Store, a: seq<Event>, b: seq<Event>)
    ensures ApplyTrace(st, a + b) == ApplyTrace(ApplyTrace(st, a), b)
    decreases |a|
  {
    if a != [] {
      assert (a + b)[0] == a[0] && (a + b)[1..] == a[1..] + b;
      ApplyTraceAppend(ApplyEvent(st, a[0]), a[1..], b);
    } else {
      assert a + b == b;
    }
  }

  /** Replaying a two-event trace. */
  lemma ApplyTraceTwo(st: Store, e1: Event, e2: Event)
    ensures ApplyTrace(st, [e1, e2]) == ApplyEvent(ApplyEvent(st, e1), e2)
  {
    assert [e1, e2][1..] == [e2];
    assert [e2][1..] == [];
    var mid := ApplyEvent(st, e1);
    assert ApplyTrace(mid, [e2]) == ApplyTrace(ApplyEvent(mid, e2), []);
  }

  lemma {:induction false} CallsAppend(a: seq<Event>, b: seq<Event>)
    ensures Calls(a + b) == Calls(a) + Calls(b)
  {
    if a != [] {
      assert (a + b)[0] == a[0] && (a + b)[1..] == a[1..] + b;
      CallsAppend(a[1..], b);
    } else {
      assert a + b == b;
    }
  }

  lemma {:induction false} WritesAppend(a: seq<Event>, b: seq<Event>)
    ensures Writes(a + b) == Writes(a) + Writes(b)
  {
    if a != [] {
      assert (a + b)[0] == a[0] && (a + b)[1..] == a[1..] + b;
      WritesAppend(a[1..], b);
    } else {
      assert a + b == b;
    }
  }
}

=== FILE: shorten.dfy ===
/** The short display form of a hash or an address: the first six
    characters, an ellipsis marker, and the last six characters. The
    stamp radio list shows identifiers in this form, and selecting one
    resolves it back to a live batch through its first six characters. */
module Shorten {

  const Ellipsis: string := "[...]"

  /** Go slices `item[0:6]` and `item[len(item)-6:]`, which panic on an
      input shorter than six characters; the precondition is that demand. */
  function ShortenHashOrAddress(item: string): (r: string)
    requires |item| >= 6
    ensures |r| == 6 + |Ellipsis| + 6
    ensures r[..6] == item[..6]
    ensures r[6..11] == Ellipsis
    ensures r[11..] == item[|item| - 6..]
  {
    item[..6] + Ellipsis + item[|item| - 6..]
  }

  /** A short form is itself long enough to be shortened, and shortening it
      again changes nothing: the displayed id is a fixed point. */
  lemma ShortenIdempotent(item: string)
    requires |item| >= 6
    ensures ShortenHashOrAddress(ShortenHashOrAddress(item)) == ShortenHashOrAddress(item)
  {
    var r := ShortenHashOrAddress(item);
    assert r[|r| - 6..] == r[11..];
  }

  /** Prefix matching against a short form is prefix matching against the
      full identifier it was made from. */
  lemma ShortFormKeepsPrefix(item: string, other: string)
    requires |item| >= 6 && |other| >= 6
    ensures ShortenHashOrAddress(item)[..6] == other[..6] <==> item[..6] == other[..6]
  {
  }

  /** Two identifiers have the same short form exactly when they agree on
      their first six and last six characters. */
  lemma ShortFormCollision(a: string, b: string)
    requires |a| >= 6 && |b| >= 6
    ensures ShortenHashOrAddress(a) == ShortenHashOrAddress(b) <==>
              a[..6] == b[..6] && a[|a| - 6..] == b[|b| - 6..]
  {
    var ra, rb := ShortenHashOrAddress(a), ShortenHashOrAddress(b);
    if ra == rb {
      assert ra[..6] == rb[..6];
      assert ra[11..] == rb[11..];
    }
  }
}

=== FILE: upload.dfy ===
/** The upload form's submit action: refuse without a file or without a
    stored `batch`; otherwise upload with that batch and, on success,
    append one record to the stored uploads history. */
module Upload {
  import opened Outcomes
  import opened Hex
  import opened Preferences
  import opened Session

  /** The record appended after an upload: the file name and the returned
      reference; size, timestamp and MIME type are left at their zero values. */
  function NewRecord(name: string, reference: string): UploadRecord {
    UploadRecord(name, reference, 0, 0, "")
  }

  /** The upload reaches the node: a file is chosen and a batch is stored. */
  predicate Gated(s: Session, file: Option<seq<byte>>) {
    file.Some? && Get(s.store.prefs, BatchKey) != ""
  }

  predicate Uploaded(s: Session, file: Option<seq<byte>>, env: Env) {
    Gated(s, file) && env.upload.Ok?
  }

  /** The dialogs after a successful upload: a history value that cannot be
      read is reported, and the upload goes on regardless. */
  function UploadNotices(h: UploadHistory, reference: string): seq<Notice> {
    (if h.Unreadable? then [ErrorShown(UploadsUnreadable)] else []) + [UploadSucceeded(reference)]
  }

  function Submit(s: Session, file: Option<seq<byte>>, name: string, mimetype: string, env: Env): (r: Effect)
    ensures file.None? ==> r == Effect(s, [], [ErrorShown(NoFileSelected)])
    ensures file.Some? && Get(s.store.prefs, BatchKey) == "" ==> r == Effect(s, [], [ErrorShown(NoBatchSelected)])
    ensures Gated(s, file) ==>
              |r.trace| >= 1 && r.trace[0] == Call(AddFile(Get(s.store.prefs, BatchKey), name, mimetype, file.value))
    ensures (exists e :: e in r.trace && e.Call? && e.call.AddFile?) <==> Gated(s, file)
    ensures r.session.store == ApplyTrace(s.store, r.trace)
    ensures r.session.store.prefs == s.store.prefs
    ensures r.session.node == s.node && r.session.screen == s.screen && r.session.stampOptions == s.stampOptions
    ensures !Uploaded(s, file, env) ==> r.session == s
    ensures Gated(s, file) && env.upload.Fail? ==> r.shown == [ErrorShown(UploadFailed(env.upload.error))]
    ensures Uploaded(s, file, env) ==>
              && r.session.store.uploads == History(LoadUploads(s.store.uploads) + [NewRecord(name, env.upload.value)])
              && r.shown == UploadNotices(s.store.uploads, env.upload.value)
  {
    if file.None? then Effect(s, [], [ErrorShown(NoFileSelected)])
    else
      var batch := Get(s.store.prefs, BatchKey);
      if batch == "" then Effect(s, [], [ErrorShown(NoBatchSelected)])
      else
        var call := Call(AddFile(batch, name, mimetype, file.value));
        match env.upload
        case Fail(e) => Effect(s, [call], [ErrorShown(UploadFailed(e))])
        case Ok(reference) =>
          var records := LoadUploads(s.store.uploads) + [NewRecord(name, reference)];
          var t := [call, SaveUploads(records)];
          ApplyTraceTwo(s.store, call, SaveUploads(records));
          Effect(s.(store := s.store.(uploads := History(records))), t, UploadNotices(s.store.uploads, reference))
  }

  /** A successful upload grows a readable history by exactly one record at
      the end; every earlier record keeps its place and value. */
  lemma UploadAppendsOne(s: Session, file: Option<seq<byte>>, name: string, mimetype: string, env: Env)
    requires Uploaded(s, file, env) && s.store.uploads.History?
    ensures var after := Submit(s, file, name, mimetype, env).session.store.uploads;
            && after.History?
            && |after.records| == |s.store.uploads.records| + 1
            && (forall i :: 0 <= i < |s.store.uploads.records| ==> after.records[i] == s.store.uploads.records[i])
            && after.records[|s.store.uploads.records|] == NewRecord(name, env.upload.value)
  {
  }

  /** A stored history that cannot be read is replaced by the one new record. */
  lemma UnreadableHistoryIsReplaced(s: Session, file: Option<seq<byte>>, name: string, mimetype: string, env: Env)
    requires Uploaded(s, file, env) && s.store.uploads.Unreadable?
    ensures Submit(s, file, name, mimetype, env).session.store.uploads == History([NewRecord(name, env.upload.value)])
    ensures Submit(s, file, name, mimetype, env).shown[0] == ErrorShown(UploadsUnreadable)
  {
  }

  /** One press of the submit button, with the node's answer to it. */
  datatype Submission = Submission(file: Option<seq<byte>>, name: string, mimetype: string, answer: Outcome<string>)

  /** A run of submissions, one after another. */
  function SubmitAll(s: Session, subs: seq<Submission>, env: Env): (r: Session)
    ensures r.store.prefs == s.store.prefs && r.node == s.node
    decreases |subs|
  {
    if subs == [] then s
    else
      var sub := subs[0];
      SubmitAll(Submit(s, sub.file, sub.name, sub.mimetype, env.(upload := sub.answer)).session, subs[1..], env)
  }

  /** The records a run of submissions adds, in order, when a batch is stored. */
  function Added(subs: seq<Submission>): seq<UploadRecord>
    decreases |subs|
  {
    if subs == [] then []
    else
      var sub := subs[0];
      (if sub.file.Some? && sub.answer.Ok? then [NewRecord(sub.name, sub.answer.value)] else []) + Added(subs[1..])
  }

  /** With a batch stored and a readable (or empty) history, a run of
      submissions leaves the old history followed by one record per
      successful upload, in submission order; failures add nothing. */
  lemma {:induction false} UploadsAccumulateInOrder(s: Session, subs: seq<Submission>, env: Env)
    requires Get(s.store.prefs, BatchKey) != "" && !s.store.uploads.Unreadable?
    ensures LoadUploads(SubmitAll(s, subs, env).store.uploads) == LoadUploads(s.store.uploads) + Added(subs)
    ensures !SubmitAll(s, subs, env).store.uploads.Unreadable?
    decreases |subs|
  {
    if subs != [] {
      var sub := subs[0];
      var next := Submit(s, sub.file, sub.name, sub.mimetype, env.(upload := sub.answer)).session;
      UploadsAccumulateInOrder(next, subs[1..], env);
      if sub.file.Some? && sub.answer.Ok? {
        assert LoadUploads(next.store.uploads) == LoadUploads(s.store.uploads) + [NewRecord(sub.name, sub.answer.value)];
      }
    }
  }

  /** Upload never touches the node-facing invariant. */
  lemma SubmitKeepsConsistency(s: Session, file: Option<seq<byte>>, name: string, mimetype: string, env: Env)
    requires Consistent(s)
    ensures Consistent(Submit(s, file, name, mimetype, env).session)
  {
  }
}
